=== FILE: README.md ===
# Water-tank RTU control core in Dafny

This project models the control core of a simulated Modbus remote terminal unit (RTU).
The RTU regulates a water tank with two inflow pumps (P1, P2), a drain valve (V1), a
level sensor (L) and a master STOP switch. The model covers five sequential pieces of
that core:

- **EGU conversion** (`EguConverter`). Raw-to-engineering-unit conversion is the affine
  map `A*raw + B`. The reverse conversion is `(egu - B)/A` truncated toward zero into a
  16-bit register. Doubles are modelled as reals, and the casts to integers are
  modelled as explicit truncation (`Trunc`).
- **Alarm classification** (`AlarmProcessor`). Analog values are checked for
  reasonability, then against the low limit, then against the high limit. A digital
  state is compared with its nominal value.
- **Write-single-coil response decoding** (`WriteSingleCoil`). The echoed output
  address and value are read big-endian from bytes 8-11. These bytes follow the
  7-byte MBAP header and the function code, as in section 6.5 of the Modbus
  Application Protocol Specification v1.1b3 with Modbus/TCP framing.
- **One acquisition cycle** (`Acquisitor`). Each point has a poll counter driven by a
  shared tick. Then the tank model steps: inflow in run mode, outflow in stop mode,
  clamping, and a level write only when the level changed.
- **One automation cycle** (`AutomationManager`). The cycle issues the
  drain-on-high-alarm override, then the STOP interlock with write-only-if-different,
  then a level write from the loop's own, different tank model.

Each loop body is a step from (state, snapshot of the five points, configuration) to
(new state, list of commands). The commands are the reads and writes handed to the
processing manager. `RtuTypes` holds the shared data model. It also holds `ApplyAll`,
which states what a list of writes leaves in the points when each write is carried out
in order. This is a model of the processing manager's write path, used only to state
effects. `LoopsCompared` relates the two loops and the alarm processor.

Where a reader might expect otherwise, this model follows the code:

- `ConvertToRaw` neither rounds nor clamps. The code divides by `A = 0` without an
  error; the model excludes `A = 0` by its precondition.
- The decoded coil value is the echoed word itself. An echoed `0xFF00` stays `0xFF00`.
- The decoder checks neither the frame length nor the function code.
- The acquisition loop drains whenever STOP is not 0, not only when STOP is 1. Its
  comment at `Acquisitor.cs` line 117 speaks of STOP=1, but the branch is the `else` of
  `STOP == 0`.
- The two loops use different plant models, and both are kept as written.
- `WriteSingleCoilFunction.cs` line 35 constructs a `Directory<...>` where a
  `Dictionary` is declared. The model takes the evident intent, a map.

## Model

| member | source | states |
|---|---|---|
| EguConverter.Trunc | dCom/ProcessingModule/EGUConverter.cs:31 | the double-to-integer cast drops the fraction: the result is within one unit of the input and no farther from zero |
| EguConverter.TruncMonotonic | dCom/ProcessingModule/EGUConverter.cs:31 | truncation toward zero preserves order |
| EguConverter.ConvertToEgu | dCom/ProcessingModule/EGUConverter.cs:17-20 | for any A != 0 the raw value is recovered from the EGU value as (egu - B)/A; with A = 0 every raw value maps to B |
| EguConverter.EguLevel | dCom/ProcessingModule/Acquisitor.cs:100-104 | the level both loops work with (also AutomationManager.cs lines 79-83) is the EGU value with its fraction dropped: within one unit of it, on the side toward zero |
| EguConverter.ConvertToRaw | dCom/ProcessingModule/EGUConverter.cs:29-32 | the raw value is the truncation of `(egu-B)/A`; it is defined only for `A != 0` and a quotient in (-1, 65536); a non-negative quotient q gives r <= q < r+1 and a negative one gives 0 |
| EguConverter.RawEguRoundTrip | dCom/ProcessingModule/EGUConverter.cs:17-32 | for every A != 0, B and raw in 0..65535, converting to EGU and back returns raw exactly |
| EguConverter.IdentityScaling | dCom/ProcessingModule/EGUConverter.cs:29-32 | with A = 1 and B = 0, an integral EGU value in 0..65535 converts to itself |
| EguConverter.EguIncreasing | dCom/ProcessingModule/EGUConverter.cs:17-20 | for A > 0 the EGU value strictly increases with the raw value |
| EguConverter.RawNonDecreasing | dCom/ProcessingModule/EGUConverter.cs:29-32 | for A > 0 the raw value never decreases as the EGU value grows within the convertible range |
| EguConverter.RawNonIncreasing | dCom/ProcessingModule/EGUConverter.cs:29-32 | for A < 0 the raw value never increases as the EGU value grows |
| EguConverter.ConvertibleBetween | dCom/ProcessingModule/EGUConverter.cs:29-32 | the convertible EGU values form an interval |
| AlarmProcessor.AnalogAlarm | dCom/ProcessingModule/AlarmProcessor.cs:16-35 | outside [EGU_Min, EGU_Max] gives REASONABILITY_FAILURE; inside, below LowLimit gives LOW_ALARM; at or above LowLimit and above HighLimit gives HIGH_ALARM; inside [LowLimit, HighLimit] gives NO_ALARM; never ABNORMAL_VALUE; each outcome stated as an if-and-only-if |
| AlarmProcessor.DigitalAlarm | dCom/ProcessingModule/AlarmProcessor.cs:43-53 | ABNORMAL_VALUE exactly when the state differs from DefaultValue, NO_ALARM exactly when it equals it |
| AlarmProcessor.ReasonabilityIgnoresLimits | dCom/ProcessingModule/AlarmProcessor.cs:18-22 | an out-of-range value is a reasonability failure whatever the limits are |
| AlarmProcessor.InvertedLimitsReportLow | dCom/ProcessingModule/AlarmProcessor.cs:24-32 | with LowLimit above HighLimit, a value between them is a LOW_ALARM, because the low check comes first |
| AlarmProcessor.NominalStateUnique | dCom/ProcessingModule/AlarmProcessor.cs:43-53 | at most one digital state raises no alarm |
| WriteSingleCoil.ParseResponse | dCom/Modbus/ModbusFunctions/WriteSingleCoilFunction.cs:33-48 | needs at least 12 bytes; the only key is (DIGITAL_OUTPUT, response[8]*256 + response[9]) and its value is response[10]*256 + response[11] |
| WriteSingleCoil.ParseResponseSingleEntry | dCom/Modbus/ModbusFunctions/WriteSingleCoilFunction.cs:35-47 | the result map has exactly one entry |
| WriteSingleCoil.ParseResponseReadsOnlyPayload | dCom/Modbus/ModbusFunctions/WriteSingleCoilFunction.cs:41-45 | responses that agree on bytes 8-11 decode alike; header, function code, length and trailing bytes are ignored |
| WriteSingleCoil.ParseResponseRecoversEncoded | dCom/Modbus/ModbusFunctions/WriteSingleCoilFunction.cs:41-45 | decoding inverts big-endian encoding: any address and value placed at bytes 8-11 are recovered under a DIGITAL_OUTPUT key |
| WriteSingleCoil.ParseResponseKeepsOnWord | dCom/Modbus/ModbusFunctions/WriteSingleCoilFunction.cs:43-45 | a frame with address bytes 0x03 0xE8 and value bytes 0xFF 0x00 decodes to {(DIGITAL_OUTPUT, 1000): 0xFF00}, not normalised to 1 |
| Acquisitor.PollPoints | dCom/ProcessingModule/Acquisitor.cs:77-89 | every counter is incremented and reset to 0 exactly when it reaches its interval; the reads are exactly one per due point, in configuration order |
| Acquisitor.CounterTick | dCom/ProcessingModule/Acquisitor.cs:79-88 | after a tick the counter is 0 exactly when the tick brought it to its interval (or it was -1); a counter in [0, interval) stays in that range; one at or past its interval only grows |
| Acquisitor.DueReadsMembers | dCom/ProcessingModule/Acquisitor.cs:77-89 | a read is issued for a point, with its StartAddress and NumberOfRegisters, exactly when that point is due |
| Acquisitor.DueReadsConcat | dCom/ProcessingModule/Acquisitor.cs:77-89 | reads follow configuration order: the reads of a split list are those of the first part followed by those of the second |
| Acquisitor.TicksCompose | dCom/ProcessingModule/Acquisitor.cs:79-88 | a + b ticks of a poll counter are a ticks followed by b more, for both counter and read count |
| Acquisitor.CountsUpWithoutReads | dCom/ProcessingModule/Acquisitor.cs:79-88 | below its interval a counter counts the ticks and the point is not read |
| Acquisitor.FirstReadOnIntervalTick | dCom/ProcessingModule/Acquisitor.cs:79-88 | from counter 0 with interval n >= 1 there is no read on ticks 1..n-1, exactly one read by tick n, and the counter is then 0 |
| Acquisitor.PeriodicReads | dCom/ProcessingModule/Acquisitor.cs:79-88 | m intervals from counter 0 give exactly m reads and leave the counter at 0 |
| Acquisitor.OverdueNeverRead | dCom/ProcessingModule/Acquisitor.cs:79-80 | the test is an equality, so a counter already at or past its interval only grows and the point is never read again |
| Acquisitor.Clamp | dCom/ProcessingModule/Acquisitor.cs:123-125 | a value below 0 becomes 0 and one above max becomes max, so for max >= 0 the result lies in [0, max] and a value already inside is unchanged; for max < 0 the result is max |
| Acquisitor.PumpInflow | dCom/ProcessingModule/Acquisitor.cs:110-113 | with both raw values 0 or 1, pump 1 contributes 160 and pump 2 contributes 80 and the two add up; any other raw value gives no inflow |
| Acquisitor.MovedLevel | dCom/ProcessingModule/Acquisitor.cs:108-121 | before clamping, with STOP = 0 the level rises by exactly the pump inflow whatever the level; with STOP != 0, V1 = 1 and the level above 6000 it drops by exactly 50, also above EGU_Max; in every other case it stays, so it rises iff STOP = 0 and the pumps add inflow and falls iff the valve drains |
| Acquisitor.SimulatedLevel | dCom/ProcessingModule/Acquisitor.cs:100-125 | after the step, 0 <= level <= (int)EGU_Max whenever (int)EGU_Max >= 0 |
| Acquisitor.RunModeInflow | dCom/ProcessingModule/Acquisitor.cs:108-116 | with STOP = 0 and room in the tank for the actual inflow, the level rises by 160 (P1 only), 80 (P2 only), 240 (both) or 0 (neither, or any other raw values) |
| Acquisitor.RunModeIgnoresValve | dCom/ProcessingModule/Acquisitor.cs:108-121 | with STOP = 0 the valve has no influence on the level |
| Acquisitor.StopModeIgnoresPumps | dCom/ProcessingModule/Acquisitor.cs:108-121 | with STOP != 0 the pumps have no influence on the level |
| Acquisitor.StopModeDrain | dCom/ProcessingModule/Acquisitor.cs:117-121 | with STOP != 0 and the level within bounds, the level drops by 50 exactly when V1 = 1 and the level is strictly above 6000; otherwise it stays |
| Acquisitor.DrainAboveMax | dCom/ProcessingModule/Acquisitor.cs:117-125 | a level above EGU_Max in stop mode with V1 open drains by the full 50 before clamping: 10020 with EGU_Max 10000 ends at 9970 |
| Acquisitor.LevelPhase | dCom/ProcessingModule/Acquisitor.cs:127-143 | a level write is issued iff the new level differs from previousLevel; it writes ConvertToRaw of the new level to the level point's StartAddress; previousLevel becomes the new level |
| Acquisitor.RepeatedCycleWritesNothing | dCom/ProcessingModule/Acquisitor.cs:127-143 | repeating a cycle on the same snapshot issues no second level write |
| Acquisitor.FirstCycleWrites | dCom/ProcessingModule/Acquisitor.cs:127-143 | from the initial previousLevel of -1 the first cycle writes the level whenever (int)EGU_Max >= 0 |
| Acquisitor.FirstCycleSilentAtMaxMinusOne | dCom/ProcessingModule/Acquisitor.cs:123-128 | when (int)EGU_Max is -1 the clamped level equals the initial previousLevel, so the first cycle writes nothing |
| Acquisitor.ScaledRangeWritable | dCom/ProcessingModule/Acquisitor.cs:123-134 | if 0 and (int)EGU_Max both convert into the register range, every level the cycle can write converts too |
| Acquisitor.Cycle | dCom/ProcessingModule/Acquisitor.cs:72-144 | one cycle: counters advance as in the polling pass, previousLevel becomes the simulated level, and the commands are the due reads followed by the change-only level write |
| AutomationManager.Step | dCom/ProcessingModule/AutomationManager.cs:62-156 | previousLevel ends at the predicted level; when the drain override applies, the first four commands are STOP=1, P1=0, P2=0, V1=1; when the prediction changes the level, the last command is the level write |
| AutomationManager.PumpInflow | dCom/ProcessingModule/AutomationManager.cs:89-99 | with both raw values 0 or 1, pump 1 contributes 160 and pump 2 contributes 80 and the two add up; any other raw value gives no inflow |
| AutomationManager.PredictedLevel | dCom/ProcessingModule/AutomationManager.cs:84-104 | the prediction is above the current level iff the pumps add inflow, below it iff they add nothing while V1 = 1 and the level is at least 6000, and never more than 50 below the level after inflow |
| AutomationManager.PredictionRule | dCom/ProcessingModule/AutomationManager.cs:89-104 | the prediction is the level after inflow, minus exactly 50 when V1 = 1 and that post-inflow level is at least 6000, and the post-inflow level itself otherwise |
| AutomationManager.DrainJudgedAfterInflow | dCom/ProcessingModule/AutomationManager.cs:96-104 | the drain is judged after inflow: 5930 litres with P2 running and V1 open predicts 5960 (5930 + 80 - 50) |
| AutomationManager.HighAlarmActive | dCom/ProcessingModule/AutomationManager.cs:86-109 | a level at or above HighLimit always triggers the drain override; since both sides are truncated toward zero it may also fire for a level less than two units below HighLimit, never lower |
| AutomationManager.DrainWrites | dCom/ProcessingModule/AutomationManager.cs:109-117 | the override issues commands iff it applies, and every one of them writes a coil value 0 or 1 |
| AutomationManager.InterlockWrites | dCom/ProcessingModule/AutomationManager.cs:119-132 | every interlock command writes 0, and nothing is written exactly when the targets are already safe: both pumps at 0 under STOP = 1, the valve at 0 under any other STOP |
| AutomationManager.LevelWrites | dCom/ProcessingModule/AutomationManager.cs:134-153 | at most one command, issued iff the prediction changes the level, and it is a write addressed to the level point |
| AutomationManager.StepIgnoresState | dCom/ProcessingModule/AutomationManager.cs:79-84 | previousLevel is overwritten with the current level before use, so the incoming state has no influence on the commands |
| AutomationManager.LevelChangesIffFlow | dCom/ProcessingModule/AutomationManager.cs:84-104 | the prediction differs from the current level iff the pumps add something or V1 = 1 with the post-inflow level at least 6000 |
| AutomationManager.DrainWritten | dCom/ProcessingModule/AutomationManager.cs:109-117 | the values the drain override writes to any point: STOP 1, P1 0, P2 0, V1 1, only when (int)EGU(level) >= (int)HighLimit |
| AutomationManager.InterlockWritten | dCom/ProcessingModule/AutomationManager.cs:119-132 | the values the interlock writes, judged on the snapshot: with STOP = 1, 0 to each pump that is not 0; otherwise 0 to V1 if it is not 0 |
| AutomationManager.StepWrittenByPhase | dCom/ProcessingModule/AutomationManager.cs:108-153 | command order within a cycle: drain writes, then interlock writes, then the level write |
| AutomationManager.StepWritesStop | dCom/ProcessingModule/AutomationManager.cs:109-117 | STOP receives exactly [1] when the drain override applies and nothing otherwise |
| AutomationManager.StepWritesPump1 | dCom/ProcessingModule/AutomationManager.cs:109-127 | P1 receives 0 from the drain override, then 0 from the interlock only when STOP = 1 and P1 != 0; no write when it is already 0 |
| AutomationManager.StepWritesPump2 | dCom/ProcessingModule/AutomationManager.cs:109-127 | P2 receives 0 from the drain override, then 0 from the interlock only when STOP = 1 and P2 != 0 |
| AutomationManager.StepWritesValve | dCom/ProcessingModule/AutomationManager.cs:109-132 | V1 receives 1 from the drain override, then 0 from the interlock only when STOP != 1 and V1 != 0 |
| AutomationManager.StepWritesLevel | dCom/ProcessingModule/AutomationManager.cs:134-153 | the level receives ConvertToRaw of the predicted level iff the prediction differs from the current level |
| AutomationManager.StepLeavesStop | dCom/ProcessingModule/AutomationManager.cs:109-117 | once the cycle's writes are carried out, STOP is 1 under the drain override and keeps its value otherwise |
| AutomationManager.StepLeavesPump1 | dCom/ProcessingModule/AutomationManager.cs:109-127 | once the writes are carried out, P1 is 0 under the drain override or STOP = 1 and keeps its value otherwise |
| AutomationManager.StepLeavesPump2 | dCom/ProcessingModule/AutomationManager.cs:109-127 | once the writes are carried out, P2 is 0 under the drain override or STOP = 1 and keeps its value otherwise |
| AutomationManager.StepLeavesValve | dCom/ProcessingModule/AutomationManager.cs:109-132 | once the writes are carried out, V1 is 0 when STOP != 1 and V1 was open (the interlock write comes last), else 1 under the drain override, else unchanged |
| AutomationManager.StepEffect | dCom/ProcessingModule/AutomationManager.cs:108-132 | once the writes are carried out: under STOP = 1 both pumps end at 0; under the drain override STOP ends 1 and both pumps 0; without it and with STOP != 1 the valve ends 0; with it, the valve ends 1 unless the interlock closed it |
| AutomationManager.DrainOverriddenByInterlock | dCom/ProcessingModule/AutomationManager.cs:109-132 | when the drain override fires with STOP != 1 and V1 != 0, the cycle writes V1=1 and then V1=0, so STOP ends on and the valve closed |
| LoopsCompared.InflowRatesAgree | dCom/ProcessingModule/AutomationManager.cs:89-99 | the automation prediction rates the pumps like the acquisition plant: 160, 80, 240 (the sum), else 0 |
| LoopsCompared.StopGatesOnlyAcquisitionInflow | dCom/ProcessingModule/Acquisitor.cs:108-121 | with STOP set and P1 running, the acquisition plant adds nothing while the automation prediction adds 160 |
| LoopsCompared.DrainThresholdsDiffer | dCom/ProcessingModule/AutomationManager.cs:101-104 | at exactly 6000 with V1 open and pumps off, acquisition does not drain (strict test) while automation predicts 5950 |
| LoopsCompared.DrainWithoutHighAlarm | dCom/ProcessingModule/AutomationManager.cs:86-109 | a level exactly at HighLimit gives NO_ALARM from the alarm processor yet triggers the drain override |
| LoopsCompared.TruncatedHighLimitFiresEarly | dCom/ProcessingModule/AutomationManager.cs:79-109 | truncation makes the drain override fire at 10500.5 against a HighLimit of 10500.9, where the alarm processor reports no alarm |

## Left out

- Threads, trigger events, `Thread.Sleep`, thread start and `Dispose`/`Abort`/`Stop` are
  not modelled. They are lifecycle plumbing; one cycle is modelled as a step.
- The 1000x scaling of `delayBetweenCommands` is not modelled. It is timing
  configuration only.
- The processing manager, storage and configuration are not modelled. Their code is
  not part of this model. The snapshot and configuration are inputs, and the issued
  commands are the output. Transaction ids and the unit address are omitted.
- `PackRequest` of the write-single-coil function is not modelled. It is unimplemented
  and throws. The reflection-based `CheckArguments` in the constructor is left out too.
- Floating point is not modelled: doubles are reals. IEEE rounding and NaN/infinity for
  `A = 0` are outside the model. The `(ushort)` cast is defined only on its exact
  range, which is the `Convertible` precondition.
- EguConverter.Trunc: does not model the behaviour of a `(int)` cast whose value lies
  outside the 32-bit range, because integers are unbounded here.
- Acquisitor.SimulatedLevel: does not model 32-bit wrap-around of `level + inflow`,
  because integers are unbounded here.
- AutomationManager.Step: does not model 32-bit wrap-around of the predicted level,
  because integers are unbounded here.
- WriteSingleCoil.ParseResponse: assumes a little-endian host for `BitConverter`. That
  is what makes the swapped byte pair read big-endian.
- WriteSingleCoil.ParseResponse: requires at least 12 bytes. A shorter response makes
  the code index past the end of the array and throw `IndexOutOfRangeException`; that
  error path is not modelled.
- Acquisitor.OverdueNeverRead: "never read again" relies on an unbounded counter. The
  C# `int` counter wraps in unchecked arithmetic and would come back round to the
  interval after about 2^32 ticks; the model's counters do not wrap.
- The effect of a write (`RtuTypes.ApplyAll`) assumes every write is carried out and
  echoed unchanged. Transport failures are outside the model.

=== FILE: acquisitor.dfy ===
/**
  One cycle of the acquisition loop. Every configured point has a poll counter driven by
  the shared tick; a point is read when its counter reaches its acquisition interval.
  After the polls the loop advances the simulated tank: pump inflow in run mode, valve
  outflow in stop mode, clamping to [0, EGU_Max], and a level write only on change.
 */
module Acquisitor {
  import opened RtuTypes
  import opened EguConverter

  /** Litres per cycle for one step of pump inflow. */
  const InflowStep := 80

  /** Litres per cycle drained through the open valve. */
  const Outflow := 50

  /** The valve drains only while the level is strictly above this many litres. */
  const DrainageLevel := 6000

  /** The remembered level before the first cycle. */
  const InitialPreviousLevel := -1

  /** What the loop carries from one cycle to the next: one poll counter per configured
      point, in configuration order, and the last level it wrote. */
  datatype State = State(counters: seq<int>, previousLevel: int)

  // ---------------------------------------------------------------- polling

  /** A point is due when the tick brings its counter to its interval exactly. */
  predicate Due(interval: int, counter: int) {
    counter + 1 == interval
  }

  /** The counter after one tick: incremented, and reset to 0 when the point is due. */
  function NextCounter(interval: int, counter: int): int {
    if Due(interval, counter) then 0 else counter + 1
  }

  /** One tick: the counter returns to 0 exactly when the point is due (or it stood at
      -1); a counter below its interval stays below it; one at or past it only grows. */
  lemma CounterTick(interval: int, counter: int)
    ensures NextCounter(interval, counter) == 0 <==> Due(interval, counter) || counter == -1
    ensures 0 <= counter < interval ==> 0 <= NextCounter(interval, counter) < interval
    ensures interval <= counter ==> NextCounter(interval, counter) == counter + 1 > interval
  {
  }

  /** Reference definition of the reads of one tick: one read per due point, in
      configuration order. */
  function DueReads(items: seq<ConfigItem>, counters: seq<int>): seq<Command>
    requires |items| == |counters|
    decreases |items|
  {
    if items == [] then []
    else
      var n := |items| - 1;
      DueReads(items[..n], counters[..n])
        + (if Due(items[n].acquisitionInterval, counters[n]) then [ReadOf(items[n])] else [])
  }

  /** The polling pass of one cycle, point by point in configuration order. */
  method PollPoints(items: seq<ConfigItem>, counters: seq<int>) returns (next: seq<int>, polls: seq<Command>)
    requires |counters| == |items|
    ensures |next| == |items|
    ensures forall i | 0 <= i < |items| :: next[i] == NextCounter(items[i].acquisitionInterval, counters[i])
    ensures polls == DueReads(items, counters)
  {
    next := [];
    polls := [];
    for i := 0 to |items|
      invariant |next| == i
      invariant forall k | 0 <= k < i :: next[k] == NextCounter(items[k].acquisitionInterval, counters[k])
      invariant polls == DueReads(items[..i], counters[..i])
    {
      var counter := counters[i] + 1;
      if counter == items[i].acquisitionInterval {
        polls := polls + [ReadOf(items[i])];
        counter := 0;
      }
      next := next + [counter];
      assert items[..i + 1][..i] == items[..i];
      assert counters[..i + 1][..i] == counters[..i];
    }
    assert items[..|items|] == items;
    assert counters[..|items|] == counters;
  }

  /** A point is read in a tick exactly when it is due. */
  lemma {:induction false} DueReadsMembers(items: seq<ConfigItem>, counters: seq<int>, c: Command)
    requires |items| == |counters|
    ensures c in DueReads(items, counters)
        <==> exists i | 0 <= i < |items| :: Due(items[i].acquisitionInterval, counters[i]) && c == ReadOf(items[i])
    decreases |items|
  {
    if items != [] {
      var n := |items| - 1;
      DueReadsMembers(items[..n], counters[..n], c);
      if c in DueReads(items, counters) && c !in DueReads(items[..n], counters[..n]) {
        assert Due(items[n].acquisitionInterval, counters[n]) && c == ReadOf(items[n]);
      }
      if exists i | 0 <= i < |items| :: Due(items[i].acquisitionInterval, counters[i]) && c == ReadOf(items[i]) {
        var i :| 0 <= i < |items| && Due(items[i].acquisitionInterval, counters[i]) && c == ReadOf(items[i]);
        if i < n {
          assert items[..n][i] == items[i] && counters[..n][i] == counters[i];
        }
      }
    }
  }

  /** Reads follow configuration order: the reads of a list split in two are the reads of
      the first part followed by those of the second. */
  lemma {:induction false} DueReadsConcat(items1: seq<ConfigItem>, counters1: seq<int>,
                                          items2: seq<ConfigItem>, counters2: seq<int>)
    requires |items1| == |counters1| && |items2| == |counters2|
    ensures DueReads(items1 + items2, counters1 + counters2)
         == DueReads(items1, counters1) + DueReads(items2, counters2)
    decreases |items2|
  {
    if items2 == [] {
      assert items1 + items2 == items1;
      assert counters1 + counters2 == counters1;
    } else {
      var n := |items2| - 1;
      var items, counters := items1 + items2, counters1 + counters2;
      assert items[..|items| - 1] == items1 + items2[..n];
      assert counters[..|counters| - 1] == counters1 + counters2[..n];
      DueReadsConcat(items1, counters1, items2[..n], counters2[..n]);
    }
  }

  /** The counter of one point after `ticks` ticks. */
  function CounterAfter(interval: int, counter: int, ticks: nat): int
    decreases ticks
  {
    if ticks == 0 then counter else CounterAfter(interval, NextCounter(interval, counter), ticks - 1)
  }

  /** The number of reads one point receives during `ticks` ticks. */
  function ReadsDuring(interval: int, counter: int, ticks: nat): nat
    decreases ticks
  {
    if ticks == 0 then 0
    else (if Due(interval, counter) then 1 else 0) + ReadsDuring(interval, NextCounter(interval, counter), ticks - 1)
  }

  /** Ticks compose: `a + b` ticks are `a` ticks followed by `b` more. */
  lemma {:induction false} TicksCompose(interval: int, counter: int, a: nat, b: nat)
    ensures CounterAfter(interval, counter, a + b) == CounterAfter(interval, CounterAfter(interval, counter, a), b)
    ensures ReadsDuring(interval, counter, a + b)
         == ReadsDuring(interval, counter, a) + ReadsDuring(interval, CounterAfter(interval, counter, a), b)
    decreases a
  {
    if a > 0 {
      TicksCompose(interval, NextCounter(interval, counter), a - 1, b);
    }
  }

  /** Below its interval a counter just counts the ticks, and the point is not read. */
  lemma {:induction false} CountsUpWithoutReads(interval: int, counter: int, ticks: nat)
    requires 0 <= counter
    requires counter + ticks < interval
    ensures CounterAfter(interval, counter, ticks) == counter + ticks
    ensures ReadsDuring(interval, counter, ticks) == 0
    decreases ticks
  {
    if ticks > 0 {
      CountsUpWithoutReads(interval, counter + 1, ticks - 1);
    }
  }

  /** From a fresh counter and an interval n >= 1, ticks 1..n-1 bring no read, tick n
      brings exactly one, and the counter is back at 0. */
  lemma FirstReadOnIntervalTick(interval: int, ticks: nat)
    requires 1 <= interval
    ensures ticks < interval ==> CounterAfter(interval, 0, ticks) == ticks && ReadsDuring(interval, 0, ticks) == 0
    ensures CounterAfter(interval, 0, interval) == 0
    ensures ReadsDuring(interval, 0, interval) == 1
  {
    if ticks < interval {
      CountsUpWithoutReads(interval, 0, ticks);
    }
    CountsUpWithoutReads(interval, 0, interval - 1);
    TicksCompose(interval, 0, interval - 1, 1);
  }

  /** A point is read once per interval: m intervals from a fresh counter give m reads
      and leave the counter at 0. */
  lemma {:induction false} PeriodicReads(interval: int, m: nat)
    requires 1 <= interval
    ensures CounterAfter(interval, 0, m * interval) == 0
    ensures ReadsDuring(interval, 0, m * interval) == m
  {
    if m > 0 {
      PeriodicReads(interval, m - 1);
      assert m * interval == (m - 1) * interval + interval;
      TicksCompose(interval, 0, (m - 1) * interval, interval);
      FirstReadOnIntervalTick(interval, 0);
    }
  }

  /** The test is an equality: a counter already at or past its interval only grows, and
      the point is never read again. */
  lemma {:induction false} OverdueNeverRead(interval: int, counter: int, ticks: nat)
    requires interval <= counter
    ensures CounterAfter(interval, counter, ticks) == counter + ticks
    ensures ReadsDuring(interval, counter, ticks) == 0
    decreases ticks
  {
    if ticks > 0 {
      OverdueNeverRead(interval, counter + 1, ticks - 1);
    }
  }

  // ---------------------------------------------------------------- plant model

  /** Inflow for the pump states: 160 for pump 1 alone, 80 for pump 2 alone, 240 for
      both, and nothing for any other combination of raw values. */
  function PumpInflow(pump1: u16, pump2: u16): (r: int)
    ensures pump1 <= 1 && pump2 <= 1 ==> r == 2 * InflowStep * pump1 as int + InflowStep * pump2 as int
    ensures pump1 > 1 || pump2 > 1 ==> r == 0
  {
    if pump1 == 1 && pump2 == 0 then 2 * InflowStep
    else if pump1 == 0 && pump2 == 1 then InflowStep
    else if pump1 == 1 && pump2 == 1 then 3 * InflowStep
    else 0
  }

  /** The highest level, EGU_Max truncated to an integer. */
  function MaxLevel(s: Snapshot): int {
    Trunc(s.level.config.eguMax)
  }

  /** The level bounded first below by 0 and then above by `max`. */
  function Clamp(x: int, max: int): (r: int)
    ensures 0 <= max ==> 0 <= r <= max
    ensures 0 <= x <= max ==> r == x
    ensures x < 0 <= max ==> r == 0
    ensures 0 <= max < x ==> r == max
    ensures max < 0 ==> r == max
  {
    var y := if x < 0 then 0 else x;
    if y > max then max else y
  }

  /** The level after one cycle before clamping: in run mode (STOP = 0) the pumps fill
      and the valve is ignored; otherwise the pumps are ignored and an open valve drains
      while the level is above the drainage level. */
  function MovedLevel(s: Snapshot): (r: int)
    ensures r > EguLevel(s.level) <==> s.stop.raw == 0 && PumpInflow(s.pump1.raw, s.pump2.raw) != 0
    ensures r < EguLevel(s.level) <==> s.stop.raw != 0 && s.valve.raw == 1 && EguLevel(s.level) > DrainageLevel
    ensures EguLevel(s.level) - Outflow <= r <= EguLevel(s.level) + 3 * InflowStep
    ensures s.stop.raw == 0 ==> r - EguLevel(s.level) == PumpInflow(s.pump1.raw, s.pump2.raw)
    ensures s.stop.raw != 0 && s.valve.raw == 1 && EguLevel(s.level) > DrainageLevel
        ==> r == EguLevel(s.level) - Outflow
  {
    var current := EguLevel(s.level);
    if s.stop.raw == 0 then
      current + PumpInflow(s.pump1.raw, s.pump2.raw)
    else if s.valve.raw == 1 && current > DrainageLevel then
      current - Outflow
    else
      current
  }

  /** The simulated level at the end of the cycle: never below 0 nor above EGU_Max. */
  function SimulatedLevel(s: Snapshot): (level: int)
    ensures 0 <= MaxLevel(s) ==> 0 <= level <= MaxLevel(s)
  {
    Clamp(MovedLevel(s), MaxLevel(s))
  }

  /** In run mode, with room in the tank for the inflow, the level rises by 160, 80,
      240 or 0. */
  lemma RunModeInflow(s: Snapshot)
    requires s.stop.raw == 0
    requires 0 <= EguLevel(s.level) && EguLevel(s.level) + PumpInflow(s.pump1.raw, s.pump2.raw) <= MaxLevel(s)
    ensures var rise := SimulatedLevel(s) - EguLevel(s.level);
      && (s.pump1.raw == 1 && s.pump2.raw == 0 ==> rise == 160)
      && (s.pump1.raw == 0 && s.pump2.raw == 1 ==> rise == 80)
      && (s.pump1.raw == 1 && s.pump2.raw == 1 ==> rise == 240)
      && (!(s.pump1.raw in {0, 1} && s.pump2.raw in {0, 1}) || s.pump1.raw == s.pump2.raw == 0 ==> rise == 0)
  {
  }

  /** In run mode the valve plays no part. */
  lemma RunModeIgnoresValve(s: Snapshot, valve: Point)
    requires s.stop.raw == 0
    ensures SimulatedLevel(s.(valve := valve)) == SimulatedLevel(s)
  {
  }

  /** In stop mode (STOP != 0) the pumps play no part. */
  lemma StopModeIgnoresPumps(s: Snapshot, pump1: Point, pump2: Point)
    requires s.stop.raw != 0
    ensures SimulatedLevel(s.(pump1 := pump1, pump2 := pump2)) == SimulatedLevel(s)
  {
  }

  /** In stop mode a level within bounds drops by 50 exactly when the valve is open
      (raw 1) and the level is strictly above 6000, and otherwise stays. */
  lemma StopModeDrain(s: Snapshot)
    requires s.stop.raw != 0
    requires 0 <= EguLevel(s.level) <= MaxLevel(s)
    ensures SimulatedLevel(s) == EguLevel(s.level) - 50 <==> s.valve.raw == 1 && EguLevel(s.level) > 6000
    ensures SimulatedLevel(s) != EguLevel(s.level) - 50 ==> SimulatedLevel(s) == EguLevel(s.level)
  {
  }

  /** A level above EGU_Max, as the automation loop may leave it, drains by the full 50
      before clamping: 10020 litres with EGU_Max 10000 ends at 9970. */
  lemma DrainAboveMax(s: Snapshot)
    requires s.stop.raw == 1 && s.valve.raw == 1
    requires EguLevel(s.level) == 10020 && MaxLevel(s) == 10000
    ensures MovedLevel(s) == 9970
    ensures SimulatedLevel(s) == 9970
  {
  }

  // ---------------------------------------------------------------- level write

  /** The level write the cycle may issue can be converted to a register value. */
  predicate LevelWritable(previousLevel: int, s: Snapshot) {
    SimulatedLevel(s) != previousLevel ==>
      Convertible(s.level.config.scaleFactor, s.level.config.deviation, SimulatedLevel(s) as real)
  }

  /** The remembered level and the writes of the level part of a cycle. */
  datatype LevelOutcome = LevelOutcome(previousLevel: int, writes: seq<Command>)

  /** The change-only level write: the new level is written, converted to raw, to the
      level point's start address when it differs from the remembered one, and is
      remembered afterwards. */
  function LevelPhase(previousLevel: int, s: Snapshot): (r: LevelOutcome)
    requires LevelWritable(previousLevel, s)
    ensures r.previousLevel == SimulatedLevel(s)
    ensures r.writes != [] <==> SimulatedLevel(s) != previousLevel
    ensures r.writes != [] ==>
      r.writes == [WriteTo(s.level, ConvertToRaw(s.level.config.scaleFactor, s.level.config.deviation, SimulatedLevel(s) as real))]
  {
    var level := SimulatedLevel(s);
    if level != previousLevel then
      var raw := ConvertToRaw(s.level.config.scaleFactor, s.level.config.deviation, level as real);
      LevelOutcome(level, [WriteTo(s.level, raw)])
    else
      LevelOutcome(previousLevel, [])
  }

  /** A cycle repeated on the same snapshot writes nothing the second time. */
  lemma RepeatedCycleWritesNothing(previousLevel: int, s: Snapshot)
    requires LevelWritable(previousLevel, s)
    ensures LevelWritable(LevelPhase(previousLevel, s).previousLevel, s)
    ensures LevelPhase(LevelPhase(previousLevel, s).previousLevel, s).writes == []
  {
  }

  /** The first cycle always writes the level when EGU_Max is not negative. */
  lemma FirstCycleWrites(s: Snapshot)
    requires 0 <= MaxLevel(s)
    requires LevelWritable(InitialPreviousLevel, s)
    ensures |LevelPhase(InitialPreviousLevel, s).writes| == 1
  {
  }

  /** With EGU_Max truncating to -1 the clamped level equals the initial remembered level,
      so even the first cycle writes nothing. */
  lemma FirstCycleSilentAtMaxMinusOne(s: Snapshot)
    requires MaxLevel(s) == -1
    ensures LevelWritable(InitialPreviousLevel, s)
    ensures LevelPhase(InitialPreviousLevel, s).writes == []
  {
  }

  /** A level point whose configured range [0, EGU_Max] maps into the register range
      can always be written, whatever the snapshot's other points and remembered level. */
  lemma ScaledRangeWritable(previousLevel: int, s: Snapshot)
    requires Convertible(s.level.config.scaleFactor, s.level.config.deviation, 0.0)
    requires Convertible(s.level.config.scaleFactor, s.level.config.deviation, MaxLevel(s) as real)
    ensures LevelWritable(previousLevel, s)
  {
    var a, b, level := s.level.config.scaleFactor, s.level.config.deviation, SimulatedLevel(s);
    if 0 <= MaxLevel(s) {
      ConvertibleBetween(a, b, 0.0, level as real, MaxLevel(s) as real);
    }
  }

  // ---------------------------------------------------------------- cycle

  /** One acquisition cycle: the due reads in configuration order, then the level write
      if the simulated level changed. */
  method Cycle(state: State, s: Snapshot, items: seq<ConfigItem>) returns (next: State, commands: seq<Command>)
    requires |state.counters| == |items|
    requires LevelWritable(state.previousLevel, s)
    ensures |next.counters| == |items|
    ensures forall i | 0 <= i < |items| ::
      next.counters[i] == NextCounter(items[i].acquisitionInterval, state.counters[i])
    ensures next.previousLevel == SimulatedLevel(s)
    ensures commands == DueReads(items, state.counters) + LevelPhase(state.previousLevel, s).writes
  {
    var counters, polls := PollPoints(items, state.counters);
    var outcome := LevelPhase(state.previousLevel, s);
    next := State(counters, outcome.previousLevel);
    commands := polls + outcome.writes;
  }
}

=== FILE: alarm_processor.dfy ===
/**
  Alarm classification of a point's current value against its configured thresholds.
  Analog values are checked for reasonability first and against the limits second;
  digital states are compared with the configured nominal state.
 */
module AlarmProcessor {
  import opened RtuTypes

  /** The value lies in the configured EGU range [EGU_Min, EGU_Max]. */
  predicate Reasonable(egu: real, c: ConfigItem) {
    c.eguMin <= egu <= c.eguMax
  }

  /** The alarm of an analog point with EGU value `egu`: the outcomes partition the
      real line, reasonability taking precedence over the low limit and the low limit
      over the high one. */
  function AnalogAlarm(egu: real, c: ConfigItem): (r: AlarmType)
    ensures r == REASONABILITY_FAILURE <==> !Reasonable(egu, c)
    ensures r == LOW_ALARM <==> Reasonable(egu, c) && egu < c.lowLimit
    ensures r == HIGH_ALARM <==> Reasonable(egu, c) && c.lowLimit <= egu && c.highLimit < egu
    ensures r == NO_ALARM <==> Reasonable(egu, c) && c.lowLimit <= egu <= c.highLimit
    ensures r != ABNORMAL_VALUE
  {
    if egu < c.eguMin || egu > c.eguMax then
      REASONABILITY_FAILURE
    else if egu < c.lowLimit then
      LOW_ALARM
    else if egu > c.highLimit then
      HIGH_ALARM
    else
      NO_ALARM
  }

  /** The alarm of a digital point in state `state`: abnormal exactly when the state is
      not the configured nominal value. */
  function DigitalAlarm(state: u16, c: ConfigItem): (r: AlarmType)
    ensures r == ABNORMAL_VALUE <==> state as real != c.defaultValue
    ensures r == NO_ALARM <==> state as real == c.defaultValue
  {
    if state as real != c.defaultValue then ABNORMAL_VALUE else NO_ALARM
  }

  /** Outside [EGU_Min, EGU_Max] the limits play no part: whatever LowLimit and
      HighLimit are configured, the result is the same reasonability failure. */
  lemma ReasonabilityIgnoresLimits(egu: real, c: ConfigItem, low: real, high: real)
    requires !Reasonable(egu, c)
    ensures AnalogAlarm(egu, c.(lowLimit := low, highLimit := high)) == REASONABILITY_FAILURE
    ensures AnalogAlarm(egu, c) == AnalogAlarm(egu, c.(lowLimit := low, highLimit := high))
  {
  }

  /** With inverted limits (LowLimit above HighLimit) a reasonable value between them
      is above the high limit yet reported as a low alarm, since the low check runs first. */
  lemma InvertedLimitsReportLow(egu: real, c: ConfigItem)
    requires Reasonable(egu, c)
    requires c.highLimit < egu < c.lowLimit
    ensures AnalogAlarm(egu, c) == LOW_ALARM
  {
  }

  /** At most one digital state is nominal. */
  lemma NominalStateUnique(s1: u16, s2: u16, c: ConfigItem)
    requires DigitalAlarm(s1, c) == NO_ALARM
    requires DigitalAlarm(s2, c) == NO_ALARM
    ensures s1 == s2
  {
  }
}

=== FILE: automation_manager.dfy ===
/**
  One cycle of the automation loop. From a snapshot of STOP, pump 1, pump 2, valve V1 and
  the tank level it issues, in this order: the four drain writes when the level has
  reached the high limit, the STOP interlock writes (each only if the target is not
  already at its safe value), and a level write when its own plant prediction changes
  the level.
 */
module AutomationManager {
  import opened RtuTypes
  import opened EguConverter

  /** Litres per cycle added with both pumps on. */
  const BothPumpsInflow := 240

  /** Litres per cycle added with pump 1 alone on. */
  const Pump1Inflow := 160

  /** Litres per cycle added with pump 2 alone on. */
  const Pump2Inflow := 80

  /** Litres per cycle drained through the open valve. */
  const ValveOutflow := 50

  /** The valve drains while the level after inflow is at least this many litres. */
  const DrainThreshold := 6000

  /** What the loop carries from one cycle to the next: the last predicted level. */
  datatype State = State(previousLevel: int)

  /** The result of a cycle: the new state and the commands issued, in order. */
  datatype Outcome = Outcome(state: State, commands: seq<Command>)

  /** Inflow for the pump states, whatever STOP says: the running pumps' rates add up,
      and any raw value other than 0 or 1 stops all inflow. */
  function PumpInflow(pump1: u16, pump2: u16): (r: int)
    ensures pump1 <= 1 && pump2 <= 1 ==> r == Pump1Inflow * pump1 as int + Pump2Inflow * pump2 as int
    ensures pump1 > 1 || pump2 > 1 ==> r == 0
  {
    if pump1 == 1 && pump2 == 1 then BothPumpsInflow
    else if pump1 == 1 && pump2 == 0 then Pump1Inflow
    else if pump1 == 0 && pump2 == 1 then Pump2Inflow
    else 0
  }

  /** The level the loop predicts: the current level plus the pump inflow, minus the
      valve outflow when the valve is open and the level after inflow is at least 6000.
      There is no clamping. */
  function PredictedLevel(s: Snapshot): (r: int)
    ensures r > EguLevel(s.level) <==> PumpInflow(s.pump1.raw, s.pump2.raw) != 0
    ensures r < EguLevel(s.level)
        <==> PumpInflow(s.pump1.raw, s.pump2.raw) == 0 && s.valve.raw == 1 && EguLevel(s.level) >= DrainThreshold
    ensures var filled := EguLevel(s.level) + PumpInflow(s.pump1.raw, s.pump2.raw);
      filled - ValveOutflow <= r <= filled
  {
    var filled := EguLevel(s.level) + PumpInflow(s.pump1.raw, s.pump2.raw);
    if s.valve.raw == 1 && filled >= DrainThreshold then filled - ValveOutflow else filled
  }

  /** The plant rule of the prediction: the valve drains 50 litres exactly when it is
      open and the level after inflow, not before it, is at least 6000. */
  lemma PredictionRule(s: Snapshot)
    ensures var filled := EguLevel(s.level) + PumpInflow(s.pump1.raw, s.pump2.raw);
      && (s.valve.raw == 1 && filled >= DrainThreshold ==> PredictedLevel(s) == filled - ValveOutflow)
      && (s.valve.raw != 1 || filled < DrainThreshold ==> PredictedLevel(s) == filled)
  {
  }

  /** The drain is judged after inflow: at 5930 litres with pump 2 running and the valve
      open, the inflow of 80 lifts the level to 6010, so 50 are drained and the
      prediction is 5960. */
  lemma DrainJudgedAfterInflow(s: Snapshot)
    requires EguLevel(s.level) == 5930
    requires s.pump1.raw == 0 && s.pump2.raw == 1 && s.valve.raw == 1
    ensures PredictedLevel(s) == 5960
  {
  }

  /** The drain override applies when the truncated level reaches the truncated HighLimit.
      A level at or above HighLimit always triggers it; because both sides are truncated
      toward zero, it can also fire for a level less than two litres below HighLimit. */
  function HighAlarmActive(s: Snapshot): (r: bool)
    ensures var egu := ConvertToEgu(s.level.config.scaleFactor, s.level.config.deviation, s.level.raw);
      && (egu >= s.level.config.highLimit ==> r)
      && (r ==> egu > s.level.config.highLimit - 2.0)
  {
    EguLevel(s.level) >= Trunc(s.level.config.highLimit)
  }

  /** The drain override: STOP on, both pumps off, valve open, written unconditionally. */
  function DrainWrites(s: Snapshot): (r: seq<Command>)
    ensures r != [] <==> HighAlarmActive(s)
    ensures forall i | 0 <= i < |r| :: r[i].Write? && (r[i].value == 0 || r[i].value == 1)
  {
    if HighAlarmActive(s) then
      [WriteTo(s.stop, 1), WriteTo(s.pump1, 0), WriteTo(s.pump2, 0), WriteTo(s.valve, 1)]
    else
      []
  }

  /** The STOP interlock, judged on the snapshot: with STOP = 1 each running pump is
      switched off; with any other STOP value an open valve is closed. */
  function InterlockWrites(s: Snapshot): (r: seq<Command>)
    ensures forall i | 0 <= i < |r| :: r[i].Write? && r[i].value == 0
    ensures r == [] <==> if s.stop.raw == 1 then s.pump1.raw == 0 && s.pump2.raw == 0 else s.valve.raw == 0
  {
    if s.stop.raw == 1 then
      (if s.pump1.raw != 0 then [WriteTo(s.pump1, 0)] else [])
        + (if s.pump2.raw != 0 then [WriteTo(s.pump2, 0)] else [])
    else if s.valve.raw != 0 then
      [WriteTo(s.valve, 0)]
    else
      []
  }

  /** The level write the cycle may issue can be converted to a register value. */
  predicate LevelWritable(s: Snapshot) {
    PredictedLevel(s) != EguLevel(s.level) ==>
      Convertible(s.level.config.scaleFactor, s.level.config.deviation, PredictedLevel(s) as real)
  }

  /** The level write, issued when the prediction differs from the current level. */
  function LevelWrites(s: Snapshot): (r: seq<Command>)
    requires LevelWritable(s)
    ensures r != [] <==> PredictedLevel(s) != EguLevel(s.level)
    ensures |r| <= 1
    ensures forall i | 0 <= i < |r| :: r[i].Write? && PointId(r[i].kind, r[i].address) == s.level.Id()
  {
    if PredictedLevel(s) != EguLevel(s.level) then
      [WriteTo(s.level, ConvertToRaw(s.level.config.scaleFactor, s.level.config.deviation, PredictedLevel(s) as real))]
    else
      []
  }

  /** One automation cycle. The remembered level is overwritten with the current level
      before it is used, so the cycle's commands depend on the snapshot alone; the drain
      writes come first and the level write, if any, last. */
  function Step(state: State, s: Snapshot): (r: Outcome)
    requires LevelWritable(s)
    ensures r.state.previousLevel == PredictedLevel(s)
    ensures HighAlarmActive(s) ==>
      |r.commands| >= 4 &&
      r.commands[..4] == [WriteTo(s.stop, 1), WriteTo(s.pump1, 0), WriteTo(s.pump2, 0), WriteTo(s.valve, 1)]
    ensures PredictedLevel(s) != EguLevel(s.level) ==>
      r.commands != [] &&
      r.commands[|r.commands| - 1]
        == WriteTo(s.level, ConvertToRaw(s.level.config.scaleFactor, s.level.config.deviation, PredictedLevel(s) as real))
  {
    var current := EguLevel(s.level);
    var predicted := PredictedLevel(s);
    var commands := DrainWrites(s) + InterlockWrites(s) + LevelWrites(s);
    Outcome(State(if current != predicted then predicted else current), commands)
  }

  /** The remembered level from the previous cycle has no influence on the commands. */
  lemma StepIgnoresState(state1: State, state2: State, s: Snapshot)
    requires LevelWritable(s)
    ensures Step(state1, s).commands == Step(state2, s).commands
  {
  }

  /** The prediction differs from the current level exactly when the pumps add
      something or the open valve drains; inflow and outflow never cancel, since the
      smallest inflow (80) exceeds the outflow (50). */
  lemma LevelChangesIffFlow(s: Snapshot)
    ensures PredictedLevel(s) != EguLevel(s.level)
        <==> (|| PumpInflow(s.pump1.raw, s.pump2.raw) != 0
              || (s.valve.raw == 1 && EguLevel(s.level) + PumpInflow(s.pump1.raw, s.pump2.raw) >= DrainThreshold))
  {
  }

  /** The values the drain override writes to the point `id`. */
  lemma DrainWritten(s: Snapshot, id: PointId)
    ensures Written(DrainWrites(s), id) ==
      if HighAlarmActive(s) then
        (if s.stop.Id() == id then [1] else []) + (if s.pump1.Id() == id then [0] else [])
          + (if s.pump2.Id() == id then [0] else []) + (if s.valve.Id() == id then [1] else [])
      else []
  {
    if HighAlarmActive(s) {
      var a, b, c, d := WriteTo(s.stop, 1), WriteTo(s.pump1, 0), WriteTo(s.pump2, 0), WriteTo(s.valve, 1);
      assert DrainWrites(s) == [a] + [b] + [c] + [d];
      WrittenAppend([a] + [b] + [c], [d], id);
      WrittenAppend([a] + [b], [c], id);
      WrittenAppend([a], [b], id);
      WrittenSingle(a, id);
      WrittenSingle(b, id);
      WrittenSingle(c, id);
      WrittenSingle(d, id);
    }
  }

  /** The values the interlock writes to the point `id`. */
  lemma InterlockWritten(s: Snapshot, id: PointId)
    ensures Written(InterlockWrites(s), id) ==
      if s.stop.raw == 1 then
        (if s.pump1.raw != 0 && s.pump1.Id() == id then [0] else [])
          + (if s.pump2.raw != 0 && s.pump2.Id() == id then [0] else [])
      else if s.valve.raw != 0 && s.valve.Id() == id then [0]
      else []
  {
    var i1 := if s.pump1.raw != 0 then [WriteTo(s.pump1, 0)] else [];
    var i2 := if s.pump2.raw != 0 then [WriteTo(s.pump2, 0)] else [];
    WrittenAppend(i1, i2, id);
    WrittenSingle(WriteTo(s.pump1, 0), id);
    WrittenSingle(WriteTo(s.pump2, 0), id);
    WrittenSingle(WriteTo(s.valve, 0), id);
  }

  /** The values a cycle writes to the point `id`, phase by phase. */
  lemma StepWrittenByPhase(state: State, s: Snapshot, id: PointId)
    requires LevelWritable(s)
    ensures Written(Step(state, s).commands, id)
         == Written(DrainWrites(s), id) + Written(InterlockWrites(s), id) + Written(LevelWrites(s), id)
    ensures Written(LevelWrites(s), id)
         == if PredictedLevel(s) != EguLevel(s.level) && s.level.Id() == id
            then [ConvertToRaw(s.level.config.scaleFactor, s.level.config.deviation, PredictedLevel(s) as real) as int]
            else []
  {
    var d, i, l := DrainWrites(s), InterlockWrites(s), LevelWrites(s);
    WrittenAppend(d + i, l, id);
    WrittenAppend(d, i, id);
    if PredictedLevel(s) != EguLevel(s.level) {
      WrittenSingle(l[0], id);
    }
  }

  /** STOP is written only by the drain override: 1 when the alarm is active. */
  lemma StepWritesStop(state: State, s: Snapshot)
    requires LevelWritable(s)
    requires DistinctPoints(s)
    ensures Written(Step(state, s).commands, s.stop.Id()) == if HighAlarmActive(s) then [1] else []
  {
    StepWrittenByPhase(state, s, s.stop.Id());
    DrainWritten(s, s.stop.Id());
    InterlockWritten(s, s.stop.Id());
  }

  /** Pump 1 receives 0 from the drain override when the alarm is active, and 0 again
      from the interlock when STOP = 1 and it runs. */
  lemma StepWritesPump1(state: State, s: Snapshot)
    requires LevelWritable(s)
    requires DistinctPoints(s)
    ensures Written(Step(state, s).commands, s.pump1.Id())
         == (if HighAlarmActive(s) then [0] else []) + (if s.stop.raw == 1 && s.pump1.raw != 0 then [0] else [])
  {
    StepWrittenByPhase(state, s, s.pump1.Id());
    DrainWritten(s, s.pump1.Id());
    InterlockWritten(s, s.pump1.Id());
  }

  /** Pump 2 receives 0 from the drain override when the alarm is active, and 0 again
      from the interlock when STOP = 1 and it runs. */
  lemma StepWritesPump2(state: State, s: Snapshot)
    requires LevelWritable(s)
    requires DistinctPoints(s)
    ensures Written(Step(state, s).commands, s.pump2.Id())
         == (if HighAlarmActive(s) then [0] else []) + (if s.stop.raw == 1 && s.pump2.raw != 0 then [0] else [])
  {
    StepWrittenByPhase(state, s, s.pump2.Id());
    DrainWritten(s, s.pump2.Id());
    InterlockWritten(s, s.pump2.Id());
  }

  /** The valve receives 1 from the drain override when the alarm is active, and then 0
      from the interlock when STOP is not 1 and the valve is open. */
  lemma StepWritesValve(state: State, s: Snapshot)
    requires LevelWritable(s)
    requires DistinctPoints(s)
    ensures Written(Step(state, s).commands, s.valve.Id())
         == (if HighAlarmActive(s) then [1] else []) + (if s.stop.raw != 1 && s.valve.raw != 0 then [0] else [])
  {
    StepWrittenByPhase(state, s, s.valve.Id());
    DrainWritten(s, s.valve.Id());
    InterlockWritten(s, s.valve.Id());
  }

  /** The level receives the converted prediction exactly when it changes the level. */
  lemma StepWritesLevel(state: State, s: Snapshot)
    requires LevelWritable(s)
    requires DistinctPoints(s)
    ensures Written(Step(state, s).commands, s.level.Id())
         == if PredictedLevel(s) != EguLevel(s.level)
            then [ConvertToRaw(s.level.config.scaleFactor, s.level.config.deviation, PredictedLevel(s) as real) as int]
            else []
  {
    StepWrittenByPhase(state, s, s.level.Id());
    DrainWritten(s, s.level.Id());
    InterlockWritten(s, s.level.Id());
  }

  /** What the cycle leaves in STOP once its writes are carried out: 1 under the drain
      override, its own value otherwise. */
  lemma StepLeavesStop(state: State, s: Snapshot)
    requires LevelWritable(s)
    requires DistinctPoints(s)
    ensures ApplyAll(s.stop, Step(state, s).commands).raw == if HighAlarmActive(s) then 1 else s.stop.raw
  {
    StepWritesStop(state, s);
    ApplyAllLastWritten(s.stop, Step(state, s).commands);
  }

  /** What the cycle leaves in pump 1: off under the drain override or STOP = 1, its own
      value otherwise. */
  lemma StepLeavesPump1(state: State, s: Snapshot)
    requires LevelWritable(s)
    requires DistinctPoints(s)
    ensures ApplyAll(s.pump1, Step(state, s).commands).raw
         == if HighAlarmActive(s) || s.stop.raw == 1 then 0 else s.pump1.raw
  {
    StepWritesPump1(state, s);
    ApplyAllLastWritten(s.pump1, Step(state, s).commands);
  }

  /** What the cycle leaves in pump 2: off under the drain override or STOP = 1, its own
      value otherwise. */
  lemma StepLeavesPump2(state: State, s: Snapshot)
    requires LevelWritable(s)
    requires DistinctPoints(s)
    ensures ApplyAll(s.pump2, Step(state, s).commands).raw
         == if HighAlarmActive(s) || s.stop.raw == 1 then 0 else s.pump2.raw
  {
    StepWritesPump2(state, s);
    ApplyAllLastWritten(s.pump2, Step(state, s).commands);
  }

  /** What the cycle leaves in the valve: closed when the interlock closes it, else open
      under the drain override, else its own value. */
  lemma StepLeavesValve(state: State, s: Snapshot)
    requires LevelWritable(s)
    requires DistinctPoints(s)
    ensures ApplyAll(s.valve, Step(state, s).commands).raw
         == if s.stop.raw != 1 && s.valve.raw != 0 then 0 else if HighAlarmActive(s) then 1 else s.valve.raw
  {
    StepWritesValve(state, s);
    ApplyAllLastWritten(s.valve, Step(state, s).commands);
  }

  /** What the cycle leaves behind, when the five points are distinct and every write is
      carried out: under STOP = 1 both pumps end off; when the alarm fires STOP ends on
      and both pumps off; without the alarm and with STOP other than 1 the valve ends
      closed; and with the alarm the valve ends open unless the interlock closed it. */
  lemma StepEffect(state: State, s: Snapshot)
    requires LevelWritable(s)
    requires DistinctPoints(s)
    ensures var cmds := Step(state, s).commands;
      && (s.stop.raw == 1 ==> ApplyAll(s.pump1, cmds).raw == 0 && ApplyAll(s.pump2, cmds).raw == 0)
      && (HighAlarmActive(s) ==>
            ApplyAll(s.stop, cmds).raw == 1 && ApplyAll(s.pump1, cmds).raw == 0 && ApplyAll(s.pump2, cmds).raw == 0)
      && (!HighAlarmActive(s) && s.stop.raw != 1 ==> ApplyAll(s.valve, cmds).raw == 0)
      && (HighAlarmActive(s) && (s.stop.raw == 1 || s.valve.raw == 0) ==> ApplyAll(s.valve, cmds).raw == 1)
  {
    StepLeavesStop(state, s);
    StepLeavesPump1(state, s);
    StepLeavesPump2(state, s);
    StepLeavesValve(state, s);
  }

  /** The drain override and the interlock clash when the alarm fires while STOP is not
      1 and the valve is open: the valve is written 1 and then 0, so the cycle ends with
      STOP on and the valve closed, and the tank is not drained in that cycle. */
  lemma DrainOverriddenByInterlock(state: State, s: Snapshot)
    requires LevelWritable(s)
    requires HighAlarmActive(s) && s.stop.raw != 1 && s.valve.raw != 0
    ensures var cmds := Step(state, s).commands;
      && |cmds| >= 5
      && cmds[3] == WriteTo(s.valve, 1)
      && cmds[4] == WriteTo(s.valve, 0)
    ensures DistinctPoints(s) ==>
      var cmds := Step(state, s).commands;
      ApplyAll(s.valve, cmds).raw == 0 && ApplyAll(s.stop, cmds).raw == 1
  {
    if DistinctPoints(s) {
      StepLeavesStop(state, s);
      StepLeavesValve(state, s);
    }
  }
}

=== FILE: egu_converter.dfy ===
/**
  Conversion between raw register counts and engineering units (EGU). Doubles are
  modelled as reals, so IEEE rounding is not part of this model; the casts of a double
  to an integral type are modelled exactly as truncation toward zero.
 */
module EguConverter {
  import opened RtuTypes

  /** The conversion of a double to an integral type: the fraction is dropped, so the
      result is the integer nearest to zero among those within one unit of `x`. */
  function Trunc(x: real): (r: int)
    ensures 0.0 <= x ==> r as real <= x < r as real + 1.0
    ensures x < 0.0 ==> r as real - 1.0 < x <= r as real
  {
    if x >= 0.0 then x.Floor else -((-x).Floor)
  }

  /** Truncation toward zero keeps order. */
  lemma TruncMonotonic(x: real, y: real)
    requires x <= y
    ensures Trunc(x) <= Trunc(y)
  {
  }

  /** Truncation leaves integers unchanged. */
  lemma TruncOfInteger(n: int)
    ensures Trunc(n as real) == n
  {
  }

  /** Raw to engineering units: the affine map `A * raw + B`. For a non-zero scale the
      raw value is recovered from the result by undoing the deviation and the scale. */
  function ConvertToEgu(a: real, b: real, raw: u16): (egu: real)
    ensures a != 0.0 ==> (egu - b) / a == raw as real
    ensures a == 0.0 ==> egu == b
  {
    a * raw as real + b
  }

  /** The engineering value of a point, converted by its own scale and deviation and
      truncated to an integer, as both control loops compute the tank level. */
  function EguLevel(p: Point): (level: int)
    ensures var egu := ConvertToEgu(p.config.scaleFactor, p.config.deviation, p.raw);
      && (0.0 <= egu ==> level as real <= egu < level as real + 1.0)
      && (egu < 0.0 ==> level as real - 1.0 < egu <= level as real)
  {
    Trunc(ConvertToEgu(p.config.scaleFactor, p.config.deviation, p.raw))
  }

  /** The unscaled quotient `(egu - B) / A` that the raw conversion truncates. */
  function Unscaled(a: real, b: real, egu: real): real
    requires a != 0.0
  {
    (egu - b) / a
  }

  /** The inputs for which the cast of `(egu - B) / A` to a 16-bit register is defined:
      A must not be zero and the quotient must truncate into 0..65535. */
  predicate Convertible(a: real, b: real, egu: real) {
    a != 0.0 && -1.0 < Unscaled(a, b, egu) < 65536.0
  }

  /** Engineering units to raw: `(egu - B) / A` truncated toward zero, with no rounding
      and no clamping. */
  function ConvertToRaw(a: real, b: real, egu: real): (r: u16)
    requires Convertible(a, b, egu)
    ensures 0.0 <= Unscaled(a, b, egu) ==> r as real <= Unscaled(a, b, egu) < r as real + 1.0
    ensures Unscaled(a, b, egu) < 0.0 ==> r == 0
  {
    Trunc(Unscaled(a, b, egu))
  }

  /** Raw to EGU and back is exact for every non-zero scale. */
  lemma RawEguRoundTrip(a: real, b: real, raw: u16)
    requires a != 0.0
    ensures Convertible(a, b, ConvertToEgu(a, b, raw))
    ensures ConvertToRaw(a, b, ConvertToEgu(a, b, raw)) == raw
  {
    var egu := ConvertToEgu(a, b, raw);
    assert egu - b == a * raw as real;
    assert Unscaled(a, b, egu) == raw as real;
    TruncOfInteger(raw);
  }

  /** With scale 1 and deviation 0 the raw value of an integral EGU value is that value. */
  lemma IdentityScaling(egu: int)
    requires 0 <= egu < 0x1_0000
    ensures Convertible(1.0, 0.0, egu as real)
    ensures ConvertToRaw(1.0, 0.0, egu as real) == egu
  {
  }

  /** For a positive scale the EGU value strictly increases with the raw value. */
  lemma EguIncreasing(a: real, b: real, raw1: u16, raw2: u16)
    requires 0.0 < a
    requires raw1 < raw2
    ensures ConvertToEgu(a, b, raw1) < ConvertToEgu(a, b, raw2)
  {
  }

  /** For a positive scale the unscaled quotient keeps the order of EGU values. */
  lemma UnscaledIncreasing(a: real, b: real, egu1: real, egu2: real)
    requires 0.0 < a
    requires egu1 <= egu2
    ensures Unscaled(a, b, egu1) <= Unscaled(a, b, egu2)
  {
  }

  /** For a negative scale the unscaled quotient reverses the order of EGU values. */
  lemma UnscaledDecreasing(a: real, b: real, egu1: real, egu2: real)
    requires a < 0.0
    requires egu1 <= egu2
    ensures Unscaled(a, b, egu2) <= Unscaled(a, b, egu1)
  {
  }

  /** For a positive scale the raw value never decreases as the EGU value grows. */
  lemma RawNonDecreasing(a: real, b: real, egu1: real, egu2: real)
    requires 0.0 < a
    requires Convertible(a, b, egu1) && Convertible(a, b, egu2)
    requires egu1 <= egu2
    ensures ConvertToRaw(a, b, egu1) <= ConvertToRaw(a, b, egu2)
  {
    UnscaledIncreasing(a, b, egu1, egu2);
    TruncMonotonic(Unscaled(a, b, egu1), Unscaled(a, b, egu2));
  }

  /** For a negative scale the raw value never increases as the EGU value grows. */
  lemma RawNonIncreasing(a: real, b: real, egu1: real, egu2: real)
    requires a < 0.0
    requires Convertible(a, b, egu1) && Convertible(a, b, egu2)
    requires egu1 <= egu2
    ensures ConvertToRaw(a, b, egu2) <= ConvertToRaw(a, b, egu1)
  {
    UnscaledDecreasing(a, b, egu1, egu2);
    TruncMonotonic(Unscaled(a, b, egu2), Unscaled(a, b, egu1));
  }

  /** The EGU values that convert form an interval: whatever lies between two
      convertible values is convertible as well. */
  lemma ConvertibleBetween(a: real, b: real, lo: real, egu: real, hi: real)
    requires Convertible(a, b, lo) && Convertible(a, b, hi)
    requires lo <= egu <= hi
    ensures Convertible(a, b, egu)
  {
    if 0.0 < a {
      UnscaledIncreasing(a, b, lo, egu);
      UnscaledIncreasing(a, b, egu, hi);
    } else {
      UnscaledDecreasing(a, b, lo, egu);
      UnscaledDecreasing(a, b, egu, hi);
    }
  }
}

=== FILE: loops_compared.dfy ===
/**
  How the two control loops and the alarm processor relate. The loops carry separate
  plant models and separate drain rules; these lemmas pin down where they agree and
  where they part.
 */
module LoopsCompared {
  import opened RtuTypes
  import opened EguConverter
  import Acquisitor
  import AutomationManager
  import AlarmProcessor

  /** Both loops rate the pumps alike: 160 for pump 1 alone, 80 for pump 2 alone, 240
      for both (the sum of the single rates), 0 otherwise. */
  lemma InflowRatesAgree(pump1: u16, pump2: u16)
    ensures Acquisitor.PumpInflow(pump1, pump2) == AutomationManager.PumpInflow(pump1, pump2)
    ensures AutomationManager.PumpInflow(1, 1)
         == AutomationManager.PumpInflow(1, 0) + AutomationManager.PumpInflow(0, 1)
  {
  }

  /** With STOP set, the acquisition plant ignores a running pump while the automation
      prediction still counts it. */
  lemma StopGatesOnlyAcquisitionInflow(s: Snapshot)
    requires s.stop.raw != 0 && s.valve.raw != 1
    requires s.pump1.raw == 1 && s.pump2.raw == 0
    requires 0 <= EguLevel(s.level) <= Acquisitor.MaxLevel(s)
    ensures Acquisitor.SimulatedLevel(s) == EguLevel(s.level)
    ensures AutomationManager.PredictedLevel(s) == EguLevel(s.level) + 160
  {
  }

  /** At exactly 6000 litres in stop mode with the valve open and the pumps off, the
      acquisition plant does not drain (its test is strict) while the automation
      prediction does (its test is not). */
  lemma DrainThresholdsDiffer(s: Snapshot)
    requires s.stop.raw == 1 && s.valve.raw == 1 && s.pump1.raw == 0 && s.pump2.raw == 0
    requires EguLevel(s.level) == 6000 <= Acquisitor.MaxLevel(s)
    ensures Acquisitor.SimulatedLevel(s) == 6000
    ensures AutomationManager.PredictedLevel(s) == 5950
  {
  }

  /** A level standing exactly at HighLimit raises no alarm in the alarm processor, whose
      high test is strict, yet triggers the automation loop's drain override, whose test
      is `>=` on truncated values. */
  lemma DrainWithoutHighAlarm(s: Snapshot)
    requires ConvertToEgu(s.level.config.scaleFactor, s.level.config.deviation, s.level.raw)
          == s.level.config.highLimit
    requires AlarmProcessor.Reasonable(s.level.config.highLimit, s.level.config)
    requires s.level.config.lowLimit <= s.level.config.highLimit
    ensures AlarmProcessor.AnalogAlarm(s.level.config.highLimit, s.level.config) == NO_ALARM
    ensures AutomationManager.HighAlarmActive(s)
  {
  }

  /** Truncation lets the drain override fire below HighLimit: a level of 10500.5 litres
      against a HighLimit of 10500.9 drains, though the alarm processor reports no alarm. */
  lemma TruncatedHighLimitFiresEarly(s: Snapshot)
    requires s.level.config.scaleFactor == 0.5 && s.level.config.deviation == 0.0 && s.level.raw == 21001
    requires s.level.config.highLimit == 10500.9
    requires s.level.config.eguMin <= 10500.5 <= s.level.config.eguMax
    requires s.level.config.lowLimit <= 10500.5
    ensures AutomationManager.HighAlarmActive(s)
    ensures AlarmProcessor.AnalogAlarm(ConvertToEgu(0.5, 0.0, 21001), s.level.config) == NO_ALARM
  {
  }
}

=== FILE: rtu_types.dfy ===
/**
  The data model shared by the converter, the alarm processor, the Modbus decoder and the
  two control loops of the water-tank RTU: point identities, configuration records, the
  five-point snapshot a cycle starts from, and the commands a cycle hands to the
  processing manager.
 */
module RtuTypes {

  /** One byte of a Modbus frame. */
  type u8 = x: int | 0 <= x < 0x100

  /** A 16-bit unsigned register value or register address. */
  type u16 = x: int | 0 <= x < 0x1_0000

  datatype PointType = ANALOG_INPUT | ANALOG_OUTPUT | DIGITAL_INPUT | DIGITAL_OUTPUT

  datatype AlarmType = NO_ALARM | LOW_ALARM | HIGH_ALARM | REASONABILITY_FAILURE | ABNORMAL_VALUE

  /** The key of a point: its type and its register address. */
  datatype PointId = PointId(kind: PointType, address: u16)

  /** The static parameters of one configured point. The mutable poll counter the
      source keeps inside the item lives in the acquisition state instead. */
  datatype ConfigItem = ConfigItem(
    kind: PointType,
    startAddress: u16,
    numberOfRegisters: u16,
    acquisitionInterval: int,
    scaleFactor: real,   // A
    deviation: real,     // B
    eguMin: real,
    eguMax: real,
    lowLimit: real,
    highLimit: real,
    defaultValue: real)

  /** A point as storage returns it: its current raw register value and its configuration. */
  datatype Point = Point(raw: u16, config: ConfigItem)
  {
    function Id(): PointId {
      PointId(config.kind, config.startAddress)
    }
  }

  /** The five points both loops work on, read from storage at the start of a cycle. */
  datatype Snapshot = Snapshot(level: Point, stop: Point, pump1: Point, pump2: Point, valve: Point)

  /** A command sent to the processing manager. Transaction id and unit address are
      left out: they do not depend on the cycle's inputs. */
  datatype Command =
    | Read(kind: PointType, startAddress: u16, quantity: u16)
    | Write(kind: PointType, address: u16, value: int)

  /** The read the acquisition loop issues for a configured point. */
  function ReadOf(item: ConfigItem): Command {
    Read(item.kind, item.startAddress, item.numberOfRegisters)
  }

  /** A write of `value` to the start address of `p`. */
  function WriteTo(p: Point, value: int): Command {
    Write(p.config.kind, p.config.startAddress, value)
  }

  /** True iff `c` is a write addressed to the point `id`. */
  predicate Targets(c: Command, id: PointId) {
    c.Write? && PointId(c.kind, c.address) == id
  }

  /** The five snapshot points have pairwise different identities. */
  predicate DistinctPoints(s: Snapshot) {
    && s.level.Id() != s.stop.Id() && s.level.Id() != s.pump1.Id()
    && s.level.Id() != s.pump2.Id() && s.level.Id() != s.valve.Id()
    && s.stop.Id() != s.pump1.Id() && s.stop.Id() != s.pump2.Id() && s.stop.Id() != s.valve.Id()
    && s.pump1.Id() != s.pump2.Id() && s.pump1.Id() != s.valve.Id()
    && s.pump2.Id() != s.valve.Id()
  }

  /** The values written to `id` by the writes of `cmds`, in order. */
  function Written(cmds: seq<Command>, id: PointId): seq<int>
  {
    if cmds == [] then []
    else (if Targets(cmds[0], id) then [cmds[0].value] else []) + Written(cmds[1..], id)
  }

  lemma {:induction false} WrittenAppend(a: seq<Command>, b: seq<Command>, id: PointId)
    ensures Written(a + b, id) == Written(a, id) + Written(b, id)
  {
    if a != [] {
      assert (a + b)[1..] == a[1..] + b;
      WrittenAppend(a[1..], b, id);
    } else {
      assert a + b == b;
    }
  }

  /** A single write lands on its own target only. */
  lemma WrittenSingle(c: Command, id: PointId)
    ensures Written([c], id) == if Targets(c, id) then [c.value] else []
  {
  }

  /** The point `p` once the command `c` has been carried out: a write addressed to it
      whose value fits a register replaces its raw value; anything else leaves it. */
  function ApplyTo(p: Point, c: Command): Point {
    if Targets(c, p.Id()) && 0 <= c.value < 0x1_0000 then p.(raw := c.value) else p
  }

  /** The point `p` once every command of `cmds` has been carried out in order. */
  function ApplyAll(p: Point, cmds: seq<Command>): Point
    decreases |cmds|
  {
    if cmds == [] then p else ApplyAll(ApplyTo(p, cmds[0]), cmds[1..])
  }

  /** The last write decides: when every value written to `p` fits a register, `p` ends
      with the last of them, or keeps its own value if it was not written at all. */
  lemma {:induction false} ApplyAllLastWritten(p: Point, cmds: seq<Command>)
    requires forall v | v in Written(cmds, p.Id()) :: 0 <= v < 0x1_0000
    ensures var w := Written(cmds, p.Id());
      ApplyAll(p, cmds).raw == if w == [] then p.raw else w[|w| - 1]
    decreases |cmds|
  {
    if cmds != [] {
      var q := ApplyTo(p, cmds[0]);
      assert q.Id() == p.Id();
      var head := if Targets(cmds[0], p.Id()) then [cmds[0].value] else [];
      var rest := Written(cmds[1..], p.Id());
      assert Written(cmds, p.Id()) == head + rest;
      assert forall v | v in rest :: v in head + rest;
      ApplyAllLastWritten(q, cmds[1..]);
      if rest == [] {
        assert head + rest == head;
        if Targets(cmds[0], p.Id()) {
          assert cmds[0].value in head + rest;
        }
      } else {
        assert (head + rest)[|head + rest| - 1] == rest[|rest| - 1];
      }
    }
  }
}

=== FILE: write_single_coil.dfy ===
/**
  Decoding of the Modbus/TCP response to a write-single-coil request (function 0x05,
  section 6.5 of the Modbus Application Protocol Specification v1.1b3). The response
  echoes the request: a 7-byte MBAP header, the function code at offset 7, then the
  output address at offsets 8-9 and the output value at offsets 10-11, both big-endian.
 */
module WriteSingleCoil {
  import opened RtuTypes

  /** Offset of the echoed output address, just past the MBAP header and function code. */
  const AddressOffset := 8

  /** Offset of the echoed output value. */
  const ValueOffset := 10

  /** The shortest response whose address and value bytes can all be read. */
  const MinResponseLength := 12

  /** A 16-bit word from two bytes, the first being the low-order one: the conversion
      of a two-byte array on a little-endian host. */
  function ToUInt16(first: u8, second: u8): u16 {
    first + 0x100 * second
  }

  /** The big-endian encoding of a 16-bit word: high byte first. */
  function BigEndian(x: u16): (bytes: seq<u8>)
    ensures |bytes| == 2
  {
    [x / 0x100, x % 0x100]
  }

  /** The decoded response: one entry, keyed by the digital output at the echoed
      address and holding the echoed value word as it is. The bytes are handed to the
      little-endian conversion swapped, which reads them big-endian. Nothing else of
      the frame is looked at: no length, header or function-code check. */
  function ParseResponse(response: seq<u8>): (values: map<PointId, u16>)
    requires |response| >= MinResponseLength
    ensures values.Keys == {PointId(DIGITAL_OUTPUT, response[8] as int * 0x100 + response[9])}
    ensures values[PointId(DIGITAL_OUTPUT, response[8] as int * 0x100 + response[9])]
         == response[10] as int * 0x100 + response[11]
  {
    var address := ToUInt16(response[AddressOffset + 1], response[AddressOffset]);
    var value := ToUInt16(response[ValueOffset + 1], response[ValueOffset]);
    map[PointId(DIGITAL_OUTPUT, address) := value]
  }

  /** The result has exactly one entry. */
  lemma ParseResponseSingleEntry(response: seq<u8>)
    requires |response| >= MinResponseLength
    ensures |ParseResponse(response)| == 1
  {
  }

  /** Only bytes 8-11 matter: responses that agree there decode alike, whatever their
      header, function code, length or trailing bytes. */
  lemma ParseResponseReadsOnlyPayload(r1: seq<u8>, r2: seq<u8>)
    requires |r1| >= MinResponseLength && |r2| >= MinResponseLength
    requires r1[8..12] == r2[8..12]
    ensures ParseResponse(r1) == ParseResponse(r2)
  {
    assert r1[8] == r1[8..12][0] && r1[9] == r1[8..12][1];
    assert r1[10] == r1[8..12][2] && r1[11] == r1[8..12][3];
  }

  /** Decoding inverts big-endian encoding: any address and value placed at offsets
      8-11 of a frame are recovered, keyed as a digital output. */
  lemma ParseResponseRecoversEncoded(header: seq<u8>, address: u16, value: u16, trailer: seq<u8>)
    requires |header| == AddressOffset
    ensures ParseResponse(header + BigEndian(address) + BigEndian(value) + trailer)
         == map[PointId(DIGITAL_OUTPUT, address) := value]
  {
  }

  /** A frame echoing address 0x03E8 and value 0xFF00 (coil ON) decodes to output 1000
      holding 0xFF00: the ON word is not turned into 1. */
  lemma ParseResponseKeepsOnWord()
    ensures ParseResponse([0x00, 0x01, 0x00, 0x00, 0x00, 0x06, 0x01, 0x05, 0x03, 0xE8, 0xFF, 0x00])
         == map[PointId(DIGITAL_OUTPUT, 1000) := 0xFF00]
  {
  }
}
